=== FILE: README.md ===
# TodoApp core, modelled in Dafny

A Rocket + Postgres todo service: users register and log in, receive a
signed token, and send it in the `Authorization` header of every task
request. This project models the decision logic of that service as pure
functions over maps, and one method (`Todos.GetTodos`, a loop over the
rows):

- `Validators` — `is_email`, the anchored pattern
  `^[\w.-]+@([\w-]+\.)+[a-zA-Z]{2,4}$`, as a hand-written recogniser that
  splits at `@` and at `.`, proved equal to a declarative statement of the
  regular expression (`EmailPattern`).
- `Guard` — `AuthGuard::from_request`: an optional header value and an
  opaque token decoder in, `Success(claims)`, `Error(Unauthorized, Missing)`
  or `Error(Unauthorized, Invalid)` out, including the exact effect of
  `trim_start_matches("Bearer ")`.
- `Accounts` — `register`, `login`, `logout` over a users store
  `map<string, string>` (email to password hash), with hashing,
  verification, token encoding and the clock as parameters.
- `Todos` — `create_todo`, `get_todo`, `get_todos`, `update_todo`,
  `delete_todo` over a `map<int, Row>` whose `completed` and `user_id` are
  nullable as the SELECTs return them, and the field defaults of
  `upload_todo`.
- `Types` — the records of `src/types/common.rs` and
  `src/types/responses.rs`, and the HTTP statuses used.
- `RustStr` — `trim_start_matches`, which the guard calls, and the
  splitting and joining at a separator character that the email
  recogniser is built from (no handler splits strings itself).
- `RustNum`, `Base` — the Rust standard library behaviour the handlers
  rely on: `i32` and `bool` parsing, decimal formatting, `Option` and
  `Result`.

Every failure of the database, the hasher or the verifier is an explicit
parameter (`lookupFails`, `insertFails`, `selectFails`, `writeFails`, a
`None` from `hash` or `verify`, a `None` new id), so each database,
hashing and verification failure path of the handlers is reachable in the
model and its answer is pinned down.

## Model

| member | source | states |
|---|---|---|
| `Validators.IsEmailMatchesPattern` | src/utils/validators.rs:3-6 | the recogniser accepts a string exactly when it is a local part, `@`, one or more `label.` groups and a 2–4 letter ending with nothing before or after |
| `Validators.Groups` | src/utils/validators.rs:4 | an accepted string decomposes into a non-empty `[\w.-]` local part, at least one non-empty `[\w-]` label each followed by a dot, and a 2–4 ASCII-letter ending |
| `Validators.AssembledAccepted` | src/utils/validators.rs:4 | every string built from well-formed groups in the regular expression's order is accepted |
| `Validators.AcceptedHasOneAt` | src/utils/validators.rs:4 | an accepted string contains `@` exactly once |
| `Validators.AcceptedAlphabet` | src/utils/validators.rs:4 | an accepted string contains no character outside letters, digits, `_`, `.`, `-` and `@` |
| `Validators.AnchoredAtBothEnds` | src/utils/validators.rs:4 | a character outside that alphabet (such as whitespace) added before or after any string makes it rejected |
| `Validators.AcceptedEnding` | src/utils/validators.rs:4 | an accepted string ends with a dot followed by 2 to 4 ASCII letters |
| `Validators.TrailingDotRejected` | src/utils/validators.rs:4 | no string ending in `.` is accepted |
| `Validators.OneLetterEndingRejected` | src/utils/validators.rs:4 | a one-letter ending after the last dot is rejected |
| `Validators.FiveLetterEndingRejected` | src/utils/validators.rs:4 | a five-letter ending after the last dot is rejected |
| `Validators.DigitInEndingRejected` | src/utils/validators.rs:4 | an ending after the last dot that contains a digit at any position is rejected, whatever precedes it |
| `Validators.EmptyLocalRejected` | src/utils/validators.rs:4 | a string starting with `@` (empty local part) is rejected |
| `Validators.NoAtRejected` | src/utils/validators.rs:4 | a string with no `@` at all is rejected |
| `Validators.AcceptsExample` | src/utils/validators.rs:3-5 | `a.b-c@sub.domain.com` is accepted |
| `Validators.RejectsExample` | src/utils/validators.rs:3-5 | `not-an-email` is rejected |
| `RustStr.TrimStartMatches` | src/guards/auth.rs:33 | the result is a suffix of the input and, for a non-empty pattern, no longer starts with the pattern |
| `RustStr.TrimStripsCopies` | src/guards/auth.rs:33 | what is removed is a whole number of copies of the pattern |
| `RustStr.TrimUnique` | src/guards/auth.rs:33 | any number of copies of the pattern in front of a rest not starting with the pattern strip to exactly that rest |
| `Guard.BearerToken` | src/guards/auth.rs:33 | the token handed to the decoder never starts with `"Bearer "` and is a suffix of the header |
| `Guard.FromRequest` | src/guards/auth.rs:28-47 | a missing header, and only a missing header, gives `Error(Unauthorized, Missing)`; with a header the guard succeeds exactly when decoding the stripped token succeeds, carrying exactly the decoded claims; every error is 401 |
| `Guard.PresentHeaderNeverMissing` | src/guards/auth.rs:32-44 | a present header yields success or `Error(Unauthorized, Invalid)`, never `Missing` |
| `Guard.DecodeFailuresIndistinguishable` | src/guards/auth.rs:38-42 | decoders failing for different reasons on the same token give the same `Invalid` outcome |
| `Guard.RepeatedPrefixesIgnored` | src/guards/auth.rs:33 | any number of leading `"Bearer "` repetitions is stripped, and the outcome equals that for the bare token |
| `Guard.BearerTokenIdempotent` | src/guards/auth.rs:33 | stripping twice equals stripping once |
| `Guard.BearerTokenStripsPrefixes` | src/guards/auth.rs:33 | the header is some number of `"Bearer "` copies followed by the token |
| `Guard.BearerTokenPassThrough` | src/guards/auth.rs:33 | a header not starting with `"Bearer "` is passed to the decoder unchanged |
| `Guard.LowerCaseSchemeKept` | src/guards/auth.rs:33 | `"bearer x"` is passed through whole: the match is case-sensitive |
| `Guard.DoubledPrefixStripped` | src/guards/auth.rs:33 | `"Bearer Bearer x"` yields the token `"x"` |
| `Accounts.Register` | src/routes/auth.rs:15-69 | registration succeeds exactly for a well-formed, unused email whose password hashes and whose insert works; success adds exactly `email ↦ hash(password)`; every failure is 400, 409 or 500 and leaves the store unchanged |
| `Accounts.MalformedEmailFirst` | src/routes/auth.rs:17-24 | a malformed email gets 400 `Invalid email address!` whatever the store, hasher and database do |
| `Accounts.DuplicateIsConflict` | src/routes/auth.rs:26-36 | a registered email with a working lookup gets 409 `User with this email already exists!`, store unchanged |
| `Accounts.RegisterServerErrors` | src/routes/auth.rs:38-67 | past the existence check, a hashing failure gives 500 `Failed to hash password!` and an insert failure 500 `Failed to register user!` |
| `Accounts.RegisterKeepsOthers` | src/routes/auth.rs:50-61 | registration never removes or changes an existing account |
| `Accounts.RegisterTwiceConflicts` | src/routes/auth.rs:26-61 | after a successful registration, registering the same email again is a 409 that changes nothing |
| `Accounts.Login` | src/routes/auth.rs:71-114 | login succeeds exactly when the lookup works, the email is known and verification returns true; success carries the token `encode(sub = email, exp = now + ttl)` and the message `User <email> logged in successfully!`; every failure is the same 401 without a token |
| `Accounts.RegisterThenLogin` | src/routes/auth.rs:50-91 | a freshly registered user logs in with the same password when the verifier accepts the hasher's output |
| `Accounts.LoginFailuresIndistinguishable` | src/routes/auth.rs:93-111 | an unknown email and a wrong password or failing verification get identical answers: 401, `Invalid email or password!`, no token |
| `Accounts.Logout` | src/routes/auth.rs:116-121 | logout always answers `User logged out successfully!` and takes no store |
| `Todos.ToTodo` | src/routes/todos.rs:276-289 | a read shows the row's id, title, description and user id, with `completed` true only when stored as true (null reads as false) |
| `Todos.CreateTodo` | src/routes/todos.rs:117-141 | a successful create echoes the input title, description, completed and user id with the new id and stores exactly one new row; a failed insert answers `Failed to create todo` and stores nothing |
| `Todos.GetTodo` | src/routes/todos.rs:143-172 | an existing row is returned field by field with null `completed` as false; an absent id or failed SELECT gives 404 `Todo with id N not found` |
| `Todos.DeleteTodo` | src/routes/todos.rs:174-202 | a present id is removed and nothing else changes; an absent id is a 404 and a database error a 500, both with the store unchanged |
| `Todos.Merge` | src/routes/todos.rs:234-248 | title, description and completed come from the patch when given, otherwise from the row, a null stored `completed` becoming false; the owner is kept |
| `Todos.UpdateTodo` | src/routes/todos.rs:204-265 | an absent id is 404, a null owner 400 `User ID is missing`, a write error 500 `Failed to update todo`, all with the store unchanged; success replaces only that row by the merge and answers what a read of it now returns |
| `Todos.GetTodos` | src/routes/todos.rs:267-290 | the list has one entry per row in the database's order, each the read view of its row; it fails with `User ID is missing` exactly when some row has a null owner |
| `Todos.FirstText` | src/routes/todos.rs:45-47 | a form field's value is its first text, absent when the field is missing or empty |
| `Todos.UploadFields` | src/routes/todos.rs:34-60 | without a file the upload is refused; title defaults to `Untitled`; completed is true only for the text `true`; a user_id that does not parse as an `i32`, including a missing one, gives `Invalid user_id` |
| `Todos.UploadTodo` | src/routes/todos.rs:16-76 | an upload stores exactly the defaulted row under the new id and answers `Todo uploaded successfully`; every failure leaves the store unchanged |
| `Todos.UploadThenGet` | src/routes/todos.rs:16-76 | an uploaded task reads back through `get_todo` under its new id with the defaulted title, description, completed and user id of the form |
| `Todos.CreateThenGet` | src/routes/todos.rs:123-165 | a created task reads back exactly as the create answered |
| `Todos.DeleteThenGet` | src/routes/todos.rs:149-196 | after a delete, reading or deleting the same id is a 404 |
| `Todos.UpdateThenGet` | src/routes/todos.rs:156-264 | an updated task reads back exactly as the update answered |
| `Todos.UpdateIsLocal` | src/routes/todos.rs:234-256 | an update keeps the set of ids, every other row, and the updated row's owner |
| `Todos.UpdateIgnoresPatchIdentity` | src/routes/todos.rs:234-248 | the patch's `id` and `user_id` have no effect |
| `Todos.UpdateIdempotent` | src/routes/todos.rs:234-256 | applying the same patch twice is the same as applying it once |
| `Todos.EmptyPatchKeepsRow` | src/routes/todos.rs:234-248 | an empty patch leaves the row as it was except that a null `completed` becomes false |
| `Todos.UploadUserIdRoundTrip` | src/routes/todos.rs:55-60 | a user_id field holding the decimal spelling of an `i32` stores that number |
| `Todos.UploadWithoutUserIdRejected` | src/routes/todos.rs:55-60 | an upload with no user_id field gives `Invalid user_id` |
| `RustNum.ParseI32` | src/routes/todos.rs:60 | a text parses exactly when it is an optional `+` or `-` followed by one or more ASCII digits whose signed value lies in the `i32` range, and then yields that value |
| `RustNum.FormatInt` | src/routes/todos.rs:168 | `format!("{}", id)` of the not-found and deleted messages: a `-` exactly for negative numbers (never a `+`), then one or more ASCII digits without leading zeros whose decimal value is the number's magnitude |
| `RustNum.NatDigits` | src/routes/todos.rs:168 | the digits of a natural number: one or more ASCII digits, no leading zero unless the number is 0, whose decimal value is the number |
| `RustNum.ParseBool` | src/routes/todos.rs:52 | only the exact texts `true` and `false` parse as booleans |
| `RustNum.ParseFormatRoundTrip` | src/routes/todos.rs:60 | parsing the decimal spelling of any `i32` gives it back |
| `RustNum.ParseRejectsOutOfRange` | src/routes/todos.rs:60 | the decimal spelling of a number outside the `i32` range never parses |

## Left out

- The database: SQL, sqlx and the connection pool are replaced by maps, and each query's failure by a boolean or `None` parameter. The race between the existence check of `register` and its insert is not modelled.
- Accounts.Register: when the existence lookup fails for an email that is already stored, the model makes the insert fail; this relies on the users table having a unique constraint on email, whose schema is not part of this model.
- Crypto: bcrypt `hash`/`verify` and JWT `encode`/`decode` are opaque function parameters. Salting, signatures and expiry (checked inside the library's default validation) are not modelled.
- Accounts.Login: `encode` and `now` are total. Not modelled: the `unwrap` panic of a failing JWT encode; the `expect` panic of `Env::jwt_secret()` when `JWT_SECRET` is unset (src/environment/mod.rs:7, reached at src/routes/auth.rs:85 after a successful verify); and the `unwrap` panic of `get_current_timestamp` on a clock before the Unix epoch (src/utils/time.rs:4). Also `exp = now + ttl` is computed over unbounded integers, not as a `usize` addition that could overflow.
- Guard.FromRequest: `decode` is total, so the `expect` panic of `Env::jwt_secret()` when `JWT_SECRET` is unset (src/environment/mod.rs:7, reached at src/guards/auth.rs:35) is not modelled; the guard always answers `Success` or an error.
- The clock (`src/utils/time.rs`) is the `now` parameter and the constants module (`BCRYPT_COST`, `JWT_EXPIRATION_SECONDS`) supplies the hasher's cost and the `ttl` parameter; the constants module is not part of this model. The JWT secret (`src/environment/mod.rs`) is not a parameter of its own: it lives inside the `decode` and `encode` parameters.
- Validators.IsEmailMatchesPattern: `\w` is ASCII letters, digits and `_`; Rust's regex `\w` is Unicode-aware and also admits non-ASCII letters and digits.
- Todos.GetTodo: a null `user_id` makes the handler panic; the model excludes that case by precondition instead of modelling the panic.
- Multipart parsing, opening and reading the uploaded file, and printing its contents in `upload_todo` are left out: the model starts from the already-parsed form with the file's text. A parse or read failure and the lookup of `files["file"][0]` are not modelled.
- `save_todo` writes a file and is left out as file I/O.
- Rocket routing and mounting, the `FromRequest` trait, serde (de)serialisation, and the parsing of `<id>` path segments as `i32` are framework plumbing and not modelled; ids and user ids are unbounded integers in the records.
- The guard's result only depends on the header and the decoder; no handler compares the token's subject with a task's `user_id`, and the model adds no such check.
- As the handlers are written: registration answers 200 (there is no 201 Created); a verification error at login is answered like a wrong password; the existence check of `register` is skipped when the lookup itself fails; the guard's claims carry only the subject.

=== FILE: accounts.dfy ===
/**
 The account routes `register`, `login` and `logout` as transitions over
 the users table, modelled as a map from email to password hash.

 Everything outside the handlers is a parameter:
 - `hash(password)` is bcrypt at the configured cost; `None` is a hashing error;
 - `verify(password, stored)` is bcrypt verification; `None` is a verification error;
 - `encode(claims)` is JWT signing with the process secret;
 - `now` is the current Unix time and `ttl` the token lifetime constant;
 - `lookupFails` and `insertFails` say whether the SELECT or the INSERT hit a database error.
 The users table keeps emails unique, so inserting an existing email fails.
 */
module Accounts {
  import opened Base
  import opened Types
  import opened Validators

  /** The users table: email to password hash. */
  type UserStore = map<string, string>

  type Hasher = string -> Option<string>
  type Verifier = (string, string) -> Option<bool>
  type Encoder = Claims -> string

  const INVALID_EMAIL := "Invalid email address!"
  const USER_EXISTS := "User with this email already exists!"
  const HASH_FAILED := "Failed to hash password!"
  const REGISTER_FAILED := "Failed to register user!"
  const REGISTERED := "User registered successfully!"
  const LOGIN_FAILED := "Invalid email or password!"
  const LOGGED_OUT := "User logged out successfully!"

  type RegisterReply = Result<MessageOnlyResponse, Rejection<MessageOnlyResponse>>
  type LoginReply = Result<LoginResponse, Rejection<LoginResponse>>

  function Reject(status: Status, message: string): RegisterReply {
    Err((status, MessageOnlyResponse(message)))
  }

  /** The one answer every failed login gets. */
  const LoginRejected: LoginReply := Err((Unauthorized, LoginResponse(LOGIN_FAILED, None)))

  function LoggedInMessage(email: string): string {
    "User " + email + " logged in successfully!"
  }

  /**
   `register`: email shape, then existence, then hashing, then the insert.
   A lookup that fails does not stop the request; the insert then meets the
   unique email and fails.
   */
  function Register(users: UserStore, user: User, hash: Hasher, lookupFails: bool, insertFails: bool)
    : (out: (RegisterReply, UserStore))
    ensures out.0.Ok? <==> IsEmail(user.email) && user.email !in users && hash(user.password).Some? && !insertFails
    ensures out.0.Ok? ==> out.0.value.message == REGISTERED
    ensures out.0.Ok? ==> out.1 == users[user.email := hash(user.password).value]
    ensures out.0.Err? ==> out.1 == users
    ensures out.0.Err? ==> out.0.error.0 in {BadRequest, Conflict, InternalServerError}
  {
    if !IsEmail(user.email) then
      (Reject(BadRequest, INVALID_EMAIL), users)
    else if !lookupFails && user.email in users then
      (Reject(Conflict, USER_EXISTS), users)
    else
      match hash(user.password)
      case None => (Reject(InternalServerError, HASH_FAILED), users)
      case Some(hashed) =>
        if insertFails || user.email in users then
          (Reject(InternalServerError, REGISTER_FAILED), users)
        else
          (Ok(MessageOnlyResponse(REGISTERED)), users[user.email := hashed])
  }

  /**
   `login`: look the email up, verify the password, and on success sign
   claims for the email expiring `ttl` seconds from now. The store is only
   read.
   */
  function Login(users: UserStore, user: User, verify: Verifier, encode: Encoder, now: nat, ttl: nat, lookupFails: bool)
    : (r: LoginReply)
    ensures r.Ok? <==> !lookupFails && user.email in users && verify(user.password, users[user.email]) == Some(true)
    ensures r.Ok? ==> r.value == LoginResponse(LoggedInMessage(user.email), Some(encode(Claims(user.email, now + ttl))))
    ensures r.Err? ==> r == LoginRejected
  {
    if lookupFails || user.email !in users then LoginRejected
    else
      match verify(user.password, users[user.email])
      case Some(true) =>
        var token := encode(Claims(user.email, now + ttl));
        Ok(LoginResponse(LoggedInMessage(user.email), Some(token)))
      case _ => LoginRejected
  }

  /** `logout`: nothing is tracked on the server, so there is nothing to revoke. */
  function Logout(): (r: MessageOnlyResponse)
    ensures r.message == LOGGED_OUT
  {
    MessageOnlyResponse(LOGGED_OUT)
  }

  /** The email check comes first: a malformed email is refused whatever the store and the hasher do. */
  lemma MalformedEmailFirst(users: UserStore, user: User, hash: Hasher, lookupFails: bool, insertFails: bool)
    requires !IsEmail(user.email)
    ensures Register(users, user, hash, lookupFails, insertFails) == (Err((BadRequest, MessageOnlyResponse(INVALID_EMAIL))), users)
  {
  }

  /** A known email is a conflict when the lookup works, before the password is hashed. */
  lemma DuplicateIsConflict(users: UserStore, user: User, hash: Hasher, insertFails: bool)
    requires IsEmail(user.email) && user.email in users
    ensures Register(users, user, hash, false, insertFails) == (Err((Conflict, MessageOnlyResponse(USER_EXISTS))), users)
  {
  }

  /** Failures past the existence check are server errors with fixed messages. */
  lemma RegisterServerErrors(users: UserStore, user: User, hash: Hasher, lookupFails: bool, insertFails: bool)
    requires IsEmail(user.email) && (lookupFails || user.email !in users)
    ensures hash(user.password).None? ==>
      Register(users, user, hash, lookupFails, insertFails).0 == Err((InternalServerError, MessageOnlyResponse(HASH_FAILED)))
    ensures hash(user.password).Some? && (insertFails || user.email in users) ==>
      Register(users, user, hash, lookupFails, insertFails).0 == Err((InternalServerError, MessageOnlyResponse(REGISTER_FAILED)))
  {
  }

  /** Registration never forgets or alters an existing account. */
  lemma RegisterKeepsOthers(users: UserStore, user: User, hash: Hasher, lookupFails: bool, insertFails: bool, other: string)
    requires other in users
    ensures var users' := Register(users, user, hash, lookupFails, insertFails).1;
      other in users' && users'[other] == users[other]
  {
  }

  /** Registering the same email twice: the second attempt is a conflict and changes nothing. */
  lemma RegisterTwiceConflicts(users: UserStore, user: User, hash: Hasher, again: User, insertFails: bool)
    requires Register(users, user, hash, false, false).0.Ok?
    requires again.email == user.email
    ensures var users' := Register(users, user, hash, false, false).1;
      Register(users', again, hash, false, insertFails) == (Err((Conflict, MessageOnlyResponse(USER_EXISTS))), users')
  {
  }

  /**
   A user who registered can log in with the same password, provided the
   hasher and verifier agree on it.
   */
  lemma RegisterThenLogin(users: UserStore, user: User, hash: Hasher, verify: Verifier, encode: Encoder, now: nat, ttl: nat)
    requires Register(users, user, hash, false, false).0.Ok?
    requires verify(user.password, hash(user.password).value) == Some(true)
    ensures var users' := Register(users, user, hash, false, false).1;
      Login(users', user, verify, encode, now, ttl, false)
        == Ok(LoginResponse(LoggedInMessage(user.email), Some(encode(Claims(user.email, now + ttl)))))
  {
  }

  /**
   A login cannot tell an unknown email from a wrong password or a failing
   verifier: all three give the same 401 answer without a token.
   */
  lemma LoginFailuresIndistinguishable(
    users: UserStore, unknown: User, known: User, verify: Verifier, encode: Encoder, now: nat, ttl: nat)
    requires unknown.email !in users
    requires known.email in users && verify(known.password, users[known.email]) != Some(true)
    ensures Login(users, unknown, verify, encode, now, ttl, false) == Login(users, known, verify, encode, now, ttl, false)
    ensures Login(users, known, verify, encode, now, ttl, false) == Err((Unauthorized, LoginResponse(LOGIN_FAILED, None)))
  {
  }
}

=== FILE: base.dfy ===
/**
 Failure-carrying wrappers shared by the whole model: Rust's `Option<T>` and
 `Result<T, E>`, with the two combinators the handlers use.
 */
module Base {

  /** Rust's `Option<T>`. */
  datatype Option<+T> = None | Some(value: T) {

    /** `Option::unwrap_or`: the carried value, or `default` when absent. */
    function UnwrapOr(default: T): T {
      match this
      case Some(v) => v
      case None => default
    }
  }

  /** Rust's `Result<T, E>`. */
  datatype Result<+T, +E> = Ok(value: T) | Err(error: E)
}

=== FILE: guard.dfy ===
/**
 The request guard in front of every task route: it reads the optional
 `Authorization` header, strips leading `"Bearer "` prefixes with
 `trim_start_matches`, and hands the rest to the token decoder.

 The decoder (signature check against the process secret, expiry check
 against the clock) is a parameter: `decode` stands for the library call
 with the secret and the default validation already applied.
 */
module Guard {
  import opened Base
  import opened RustStr
  import opened Types

  /** The claims the guard decodes: only the subject is read. */
  datatype GuardClaims = GuardClaims(sub: string)

  /** A decoding failure, whatever its cause; the guard never looks inside. */
  datatype TokenError = TokenError

  datatype AuthError = Missing | Invalid

  datatype AuthGuard = AuthGuard(claims: GuardClaims)

  /** The outcome of the guard: the request proceeds with claims, or is rejected. */
  datatype Outcome = Success(guard: AuthGuard) | Error(status: Status, reason: AuthError)

  const BEARER: string := "Bearer "

  /** The token handed to the decoder: the header with every leading `"Bearer "` removed. */
  function BearerToken(header: string): (token: string)
    ensures !StartsWith(token, BEARER)
    ensures |token| <= |header| && token == header[|header| - |token|..]
  {
    TrimStartMatches(header, BEARER)
  }

  /** `AuthGuard::from_request`, given the header value and the decoder. */
  function FromRequest(authorization: Option<string>, decode: string -> Result<GuardClaims, TokenError>): (r: Outcome)
    ensures authorization.None? <==> r == Error(Unauthorized, Missing)
    ensures r.Error? ==> r.status == Unauthorized
    ensures authorization.Some? ==>
      (r.Success? <==> decode(BearerToken(authorization.value)).Ok?)
    ensures r.Success? ==> r.guard.claims == decode(BearerToken(authorization.value)).value
  {
    match authorization
    case Some(header) =>
      var token := BearerToken(header);
      (match decode(token)
       case Ok(claims) => Success(AuthGuard(claims))
       case Err(_) => Error(Unauthorized, Invalid))
    case None => Error(Unauthorized, Missing)
  }

  /** A present header is never reported as missing: the guard succeeds or reports it invalid. */
  lemma PresentHeaderNeverMissing(header: string, decode: string -> Result<GuardClaims, TokenError>)
    ensures FromRequest(Some(header), decode) != Error(Unauthorized, Missing)
    ensures FromRequest(Some(header), decode).Success? || FromRequest(Some(header), decode) == Error(Unauthorized, Invalid)
  {
  }

  /**
   Every decoding failure looks the same from outside: two decoders that
   both fail on the token, for whatever reasons, produce the same outcome.
   */
  lemma DecodeFailuresIndistinguishable(
    header: string,
    decode1: string -> Result<GuardClaims, TokenError>,
    decode2: string -> Result<GuardClaims, TokenError>)
    requires decode1(BearerToken(header)).Err?
    requires decode2(BearerToken(header)).Err?
    ensures FromRequest(Some(header), decode1) == FromRequest(Some(header), decode2) == Error(Unauthorized, Invalid)
  {
  }

  /**
   The guard only sees the token: headers that strip to the same token are
   treated alike, so any number of repeated prefixes is accepted.
   */
  lemma RepeatedPrefixesIgnored(n: nat, token: string, decode: string -> Result<GuardClaims, TokenError>)
    requires !StartsWith(token, BEARER)
    ensures BearerToken(Repeat(BEARER, n) + token) == token
    ensures FromRequest(Some(Repeat(BEARER, n) + token), decode) == FromRequest(Some(token), decode)
  {
    TrimUnique(BEARER, n, token);
    TrimUnique(BEARER, 0, token);
    assert Repeat(BEARER, 0) + token == token;
  }

  /** Stripping is idempotent: the token itself strips to the token. */
  lemma BearerTokenIdempotent(header: string)
    ensures BearerToken(BearerToken(header)) == BearerToken(header)
  {
    var t := BearerToken(header);
    TrimUnique(BEARER, 0, t);
    assert Repeat(BEARER, 0) + t == t;
  }

  /** What is stripped is some number of whole `"Bearer "` prefixes. */
  lemma BearerTokenStripsPrefixes(header: string)
    ensures exists n: nat :: header == Repeat(BEARER, n) + BearerToken(header)
  {
    var n := TrimStripsCopies(header, BEARER);
    assert header == Repeat(BEARER, n) + BearerToken(header);
  }

  /** A header not starting with the exact, case-sensitive prefix is passed through unchanged. */
  lemma BearerTokenPassThrough(header: string)
    requires !StartsWith(header, BEARER)
    ensures BearerToken(header) == header
  {
    TrimUnique(BEARER, 0, header);
    assert Repeat(BEARER, 0) + header == header;
  }

  /** A lower-case scheme is not a prefix match, so the whole header is the token. */
  lemma LowerCaseSchemeKept()
    ensures BearerToken("bearer x") == "bearer x"
  {
    assert "bearer x"[0] != BEARER[0];
    BearerTokenPassThrough("bearer x");
  }

  /** A doubled prefix is stripped twice. */
  lemma DoubledPrefixStripped()
    ensures BearerToken(BEARER + BEARER + "x") == "x"
  {
    assert !StartsWith("x", BEARER);
    TrimUnique(BEARER, 2, "x");
    assert Repeat(BEARER, 2) == BEARER + (BEARER + "");
    assert Repeat(BEARER, 2) + "x" == BEARER + BEARER + "x";
  }
}

=== FILE: rust_num.dfy ===
/**
 Rust's decimal formatting of integers (`format!("{}", n)`) and the
 `FromStr` parsers for `i32` and `bool`, as the handlers use them.
 */
module RustNum {
  import opened Base

  const I32_MIN: int := -0x8000_0000
  const I32_MAX: int := 0x7FFF_FFFF

  predicate IsI32(n: int) {
    I32_MIN <= n <= I32_MAX
  }

  predicate IsDigit(c: char) {
    '0' <= c <= '9'
  }

  predicate AllDigits(s: string) {
    forall i :: 0 <= i < |s| ==> IsDigit(s[i])
  }

  function DigitValue(c: char): nat
    requires IsDigit(c)
  {
    c as int - '0' as int
  }

  function DigitChar(d: nat): char
    requires d < 10
  {
    ('0' as int + d) as char
  }

  /** The value of a string of decimal digits, most significant first. */
  function DigitsValue(s: string): nat
    requires AllDigits(s)
    decreases |s|
  {
    if |s| == 0 then 0 else DigitsValue(s[..|s| - 1]) * 10 + DigitValue(s[|s| - 1])
  }

  /** The shortest decimal spelling of a natural number. */
  function NatDigits(n: nat): (s: string)
    ensures |s| >= 1 && AllDigits(s)
    ensures DigitsValue(s) == n
    ensures |s| > 1 ==> s[0] != '0'
    decreases n
  {
    var last := [DigitChar(n % 10)];
    if n < 10 then last
    else
      var prefix := NatDigits(n / 10);
      var s := prefix + last;
      assert s[..|s| - 1] == prefix;
      s
  }

  /** `format!("{}", n)` for an integer: a minus sign, then the digits. */
  function FormatInt(n: int): (s: string)
    ensures |s| >= 1
    ensures n < 0 <==> s[0] == '-'
    ensures var d := if n < 0 then s[1..] else s;
      && |d| >= 1 && AllDigits(d)
      && DigitsValue(d) == (if n < 0 then -n else n)
      && (|d| > 1 ==> d[0] != '0')
  {
    if n < 0 then "-" + NatDigits(-n) else NatDigits(n)
  }

  /** The text after an optional leading `+` or `-`. */
  function Unsigned(s: string): (digits: string)
    ensures |s| >= 1 && (s[0] == '+' || s[0] == '-') ==> s == [s[0]] + digits
    ensures |s| == 0 || (s[0] != '+' && s[0] != '-') ==> digits == s
  {
    if |s| >= 1 && (s[0] == '+' || s[0] == '-') then s[1..] else s
  }

  /** An optional sign followed by one or more ASCII digits. */
  predicate Numeral(s: string) {
    |s| >= 1 && |Unsigned(s)| >= 1 && AllDigits(Unsigned(s))
  }

  /** The value a numeral spells, negative exactly under a leading `-`. */
  function NumeralValue(s: string): int
    requires Numeral(s)
  {
    if s[0] == '-' then 0 - DigitsValue(Unsigned(s)) as int else DigitsValue(Unsigned(s))
  }

  /**
   `s.parse::<i32>()`: an optional `+` or `-`, then one or more ASCII
   digits (leading zeros allowed), with the value inside the `i32` range.
   The empty string and a lone sign are rejected.
   */
  function ParseI32(s: string): (r: Option<int>)
    ensures r.Some? <==> Numeral(s) && IsI32(NumeralValue(s))
    ensures r.Some? ==> r.value == NumeralValue(s)
  {
    if |s| == 0 then None
    else if (s[0] == '+' || s[0] == '-') && |s| == 1 then None
    else
      var negative := s[0] == '-';
      var digits := if s[0] == '+' || s[0] == '-' then s[1..] else s;
      if !AllDigits(digits) then None
      else
        var value: int := if negative then 0 - DigitsValue(digits) as int else DigitsValue(digits);
        if IsI32(value) then Some(value) else None
  }

  /** `s.parse::<bool>()`: exactly `true` or `false`, nothing else. */
  function ParseBool(s: string): (r: Option<bool>)
    ensures r == Some(true) <==> s == "true"
    ensures r == Some(false) <==> s == "false"
  {
    if s == "true" then Some(true)
    else if s == "false" then Some(false)
    else None
  }

  /** Parsing the decimal spelling of any `i32` gives the number back. */
  lemma ParseFormatRoundTrip(n: int)
    requires IsI32(n)
    ensures ParseI32(FormatInt(n)) == Some(n)
  {
    var s := FormatInt(n);
    if n < 0 {
      assert s[1..] == NatDigits(-n);
    } else {
      var d := NatDigits(n);
      assert s == d;
      assert d[0] != '+' && d[0] != '-' by { assert IsDigit(d[0]); }
    }
  }

  /** The decimal spelling of a value outside the `i32` range never parses. */
  lemma ParseRejectsOutOfRange(n: int)
    requires !IsI32(n)
    ensures ParseI32(FormatInt(n)) == None
  {
    var s := FormatInt(n);
    if n >= 0 {
      var d := NatDigits(n);
      assert IsDigit(d[0]);
    } else {
      assert s[1..] == NatDigits(-n);
    }
  }
}

=== FILE: rust_str.dfy ===
/**
 String operations of Rust's standard library: prefix tests and
 `str::trim_start_matches` with a string pattern, which the guard calls,
 and splitting at a separator character and joining back, from which the
 email recogniser is built.
 */
module RustStr {

  /** `s.starts_with(p)`. */
  predicate StartsWith(s: string, p: string) {
    |p| <= |s| && s[..|p|] == p
  }

  /** `n` copies of `p` back to back. */
  function Repeat(p: string, n: nat): string {
    if n == 0 then "" else p + Repeat(p, n - 1)
  }

  /** No piece contains `c`. */
  predicate PiecesAvoid(parts: seq<string>, c: char) {
    forall i :: 0 <= i < |parts| ==> c !in parts[i]
  }

  /** `s.split(sep)`: the maximal separator-free pieces, always at least one. */
  function Split(s: string, sep: char): (parts: seq<string>)
    ensures |parts| >= 1
    decreases |s|
  {
    if |s| == 0 then [""]
    else
      var rest := Split(s[1..], sep);
      if s[0] == sep then [""] + rest
      else [[s[0]] + rest[0]] + rest[1..]
  }

  /** `parts.join(sep)` for a one-character separator. */
  function Join(parts: seq<string>, sep: char): string
    requires |parts| >= 1
    decreases |parts|
  {
    if |parts| == 1 then parts[0] else parts[0] + [sep] + Join(parts[1..], sep)
  }

  /** Joining the pieces of a split gives back the original string. */
  lemma {:induction false} JoinSplit(s: string, sep: char)
    ensures Join(Split(s, sep), sep) == s
    decreases |s|
  {
    if |s| > 0 {
      var rest := Split(s[1..], sep);
      JoinSplit(s[1..], sep);
      if s[0] == sep {
        assert Split(s, sep) == [""] + rest;
        assert ([""] + rest)[1..] == rest;
        assert s == [sep] + s[1..];
      } else {
        var parts := Split(s, sep);
        assert parts == [[s[0]] + rest[0]] + rest[1..];
        if |rest| == 1 {
          assert s == [s[0]] + s[1..];
        } else {
          assert parts[1..] == rest[1..];
          assert Join(rest, sep) == rest[0] + [sep] + Join(rest[1..], sep);
          assert s == [s[0]] + s[1..];
        }
      }
    }
  }

  /** A separator-free string splits into itself alone. */
  lemma {:induction false} SplitWithoutSep(a: string, sep: char)
    requires sep !in a
    ensures Split(a, sep) == [a]
    decreases |a|
  {
    if |a| > 0 {
      SplitWithoutSep(a[1..], sep);
      assert [a[0]] + a[1..] == a;
    }
  }

  /** Splitting at the first separator peels off the part before it. */
  lemma {:induction false} SplitAtFirst(a: string, b: string, sep: char)
    requires sep !in a
    ensures Split(a + [sep] + b, sep) == [a] + Split(b, sep)
    decreases |a|
  {
    var s := a + [sep] + b;
    if |a| == 0 {
      assert s[1..] == b;
    } else {
      assert s[1..] == a[1..] + [sep] + b;
      SplitAtFirst(a[1..], b, sep);
      assert [a[0]] + a[1..] == a;
    }
  }

  /** Splitting a join of separator-free pieces gives the pieces back. */
  lemma {:induction false} SplitJoin(parts: seq<string>, sep: char)
    requires |parts| >= 1
    requires PiecesAvoid(parts, sep)
    ensures Split(Join(parts, sep), sep) == parts
    decreases |parts|
  {
    if |parts| == 1 {
      SplitWithoutSep(parts[0], sep);
    } else {
      SplitJoin(parts[1..], sep);
      SplitAtFirst(parts[0], Join(parts[1..], sep), sep);
      assert [parts[0]] + parts[1..] == parts;
    }
  }

  /** A character found in none of the pieces, nor the separator, is not in their join. */
  lemma {:induction false} JoinAvoids(parts: seq<string>, sep: char, c: char)
    requires |parts| >= 1
    requires c != sep
    requires PiecesAvoid(parts, c)
    ensures c !in Join(parts, sep)
    decreases |parts|
  {
    if |parts| > 1 {
      JoinAvoids(parts[1..], sep, c);
      assert c !in parts[0];
    }
  }

  /**
   `s.trim_start_matches(p)`: strips `p` from the front as long as it is
   there. An empty pattern leaves the string as it is.
   */
  function TrimStartMatches(s: string, p: string): (r: string)
    ensures |r| <= |s| && r == s[|s| - |r|..]
    ensures |p| > 0 ==> !StartsWith(r, p)
    decreases |s|
  {
    if |p| > 0 && StartsWith(s, p) then TrimStartMatches(s[|p|..], p) else s
  }

  /** What is stripped is a whole number `n` of copies of the pattern. */
  lemma {:induction false} TrimStripsCopies(s: string, p: string) returns (n: nat)
    ensures s == Repeat(p, n) + TrimStartMatches(s, p)
    decreases |s|
  {
    var r := TrimStartMatches(s, p);
    if |p| > 0 && StartsWith(s, p) {
      var m := TrimStripsCopies(s[|p|..], p);
      assert s[|p|..] == Repeat(p, m) + r;
      PrefixThenRest(s, p);
      RepeatOneMore(p, m, r);
      n := m + 1;
    } else {
      n := 0;
      assert Repeat(p, 0) + s == s;
    }
  }

  /** A string starting with `p` is `p` followed by the rest. */
  lemma PrefixThenRest(s: string, p: string)
    requires StartsWith(s, p)
    ensures s == p + s[|p|..]
  {
    assert s == s[..|p|] + s[|p|..];
  }

  /** `p` followed by `t` starts with `p`, and what follows it is `t`. */
  lemma ConcatPrefix(p: string, t: string)
    ensures StartsWith(p + t, p) && (p + t)[|p|..] == t
  {
    assert (p + t)[..|p|] == p;
  }

  /** One more copy in front. */
  lemma RepeatOneMore(p: string, n: nat, r: string)
    ensures p + (Repeat(p, n) + r) == Repeat(p, n + 1) + r
  {
    assert Repeat(p, n + 1) == p + Repeat(p, n);
  }

  /**
   The stripped result is the unique rest: whatever copies of a non-empty
   pattern precede a rest that does not start with the pattern, trimming
   yields exactly that rest.
   */
  lemma {:induction false} TrimUnique(p: string, n: nat, rest: string)
    requires |p| > 0
    requires !StartsWith(rest, p)
    ensures TrimStartMatches(Repeat(p, n) + rest, p) == rest
    decreases n
  {
    if n > 0 {
      RepeatOneMore(p, n - 1, rest);
      TrimStep(p, Repeat(p, n - 1) + rest);
      TrimUnique(p, n - 1, rest);
    } else {
      assert Repeat(p, 0) + rest == rest;
    }
  }

  /** Trimming `p` followed by `t` trims `t`. */
  lemma TrimStep(p: string, t: string)
    requires |p| > 0
    ensures TrimStartMatches(p + t, p) == TrimStartMatches(t, p)
  {
    ConcatPrefix(p, t);
  }
}

=== FILE: todos.dfy ===
/**
 The task routes over the todos table, modelled as a map from id to row.
 A row holds what the SELECTs return: `completed` and `user_id` are
 nullable columns, so they are `Option`s here.

 Database behaviour the handlers depend on is passed in:
 - `selectFails`, `writeFails`: the query hit a database error;
 - `newId`: the id the database gives a new row (`None` when the INSERT
   fails); it is required to be fresh, as a serial key is;
 - `order`: the order in which a SELECT without ORDER BY returns the rows.
 */
module Todos {
  import opened Base
  import opened Types
  import opened RustNum

  /** A row of the todos table, keyed by its id. */
  datatype Row = Row(title: string, description: string, completed: Option<bool>, userId: Option<int>)

  type TodoStore = map<int, Row>

  type Reply<T> = Result<T, Rejection<MessageOnlyResponse>>

  const CREATE_FAILED := "Failed to create todo"
  const DELETE_FAILED := "Failed to delete todo"
  const UPDATE_FAILED := "Failed to update todo"
  const FETCH_FAILED := "Failed to fetch todos"
  const USER_ID_MISSING := "User ID is missing"

  /** The 404 every id-based route answers with. */
  function NotFoundFor(id: int): Rejection<MessageOnlyResponse> {
    (NotFound, MessageOnlyResponse("Todo with id " + FormatInt(id) + " not found"))
  }

  function DeletedMessage(id: int): string {
    "Todo with id " + FormatInt(id) + " deleted successfully!"
  }

  /** The row an accepted task is stored as. */
  function RowOf(todo: Todo): Row {
    Row(todo.title, todo.description, Some(todo.completed), Some(todo.userId))
  }

  /** How a read shows a row: a null `completed` reads as `false`. */
  function ToTodo(id: int, row: Row): (t: Todo)
    requires row.userId.Some?
    ensures t.id == Some(id) && t.title == row.title && t.description == row.description
    ensures t.completed <==> row.completed == Some(true)
    ensures t.userId == row.userId.value
  {
    Todo(Some(id), row.title, row.description, row.completed.UnwrapOr(false), row.userId.value)
  }

  /** `create_todo`: insert the task and echo it back with the new id. */
  function CreateTodo(store: TodoStore, todo: Todo, newId: Option<int>): (out: (Result<Todo, string>, TodoStore))
    requires newId.Some? ==> newId.value !in store
    ensures out.0.Ok? <==> newId.Some?
    ensures out.0.Ok? ==> out.0.value == todo.(id := newId)
    ensures out.0.Ok? ==> out.1 == store[newId.value := RowOf(todo)] && |out.1| == |store| + 1
    ensures out.0.Err? ==> out.0.error == CREATE_FAILED && out.1 == store
  {
    match newId
    case None => (Err(CREATE_FAILED), store)
    case Some(id) =>
      (Ok(Todo(Some(id), todo.title, todo.description, todo.completed, todo.userId)), store[id := RowOf(todo)])
  }

  /**
   `get_todo`. The handler unwraps a null `user_id` and panics; that case
   is excluded by the precondition.
   */
  function GetTodo(store: TodoStore, id: int, selectFails: bool): (r: Reply<Todo>)
    requires !selectFails && id in store ==> store[id].userId.Some?
    ensures r.Ok? <==> !selectFails && id in store
    ensures r.Ok? ==> r.value.id == Some(id) && r.value.title == store[id].title
    ensures r.Ok? ==> r.value.description == store[id].description
    ensures r.Ok? ==> (r.value.completed <==> store[id].completed == Some(true))
    ensures r.Ok? ==> Some(r.value.userId) == store[id].userId
    ensures r.Err? ==> r.error == NotFoundFor(id)
  {
    if selectFails || id !in store then Err(NotFoundFor(id))
    else Ok(ToTodo(id, store[id]))
  }

  /** `delete_todo`: remove the row if there is one. */
  function DeleteTodo(store: TodoStore, id: int, writeFails: bool): (out: (Reply<MessageOnlyResponse>, TodoStore))
    ensures out.0.Ok? <==> !writeFails && id in store
    ensures out.0.Ok? ==> out.0.value.message == DeletedMessage(id)
    ensures out.0.Ok? ==> out.1.Keys == store.Keys - {id} && forall k :: k in out.1 ==> out.1[k] == store[k]
    ensures !writeFails && id !in store ==> out.0 == Err(NotFoundFor(id))
    ensures writeFails ==> out.0 == Err((InternalServerError, MessageOnlyResponse(DELETE_FAILED)))
    ensures out.0.Err? ==> out.1 == store
  {
    if writeFails then (Err((InternalServerError, MessageOnlyResponse(DELETE_FAILED))), store)
    else if id in store then (Ok(MessageOnlyResponse(DeletedMessage(id))), store - {id})
    else (Err(NotFoundFor(id)), store)
  }

  /**
   The merge of `update_todo`: each of title, description and completed
   comes from the patch when given, otherwise from the stored row, with a
   null stored `completed` read as `false`. The patch's `id` and `user_id`
   are never consulted.
   */
  function Merge(row: Row, patch: OptionalTodo): (merged: Row)
    ensures merged.title == if patch.title.Some? then patch.title.value else row.title
    ensures merged.description == if patch.description.Some? then patch.description.value else row.description
    ensures merged.completed.Some?
    ensures patch.completed.Some? ==> merged.completed == patch.completed
    ensures patch.completed.None? ==> (merged.completed == Some(true) <==> row.completed == Some(true))
    ensures merged.userId == row.userId
  {
    Row(
      patch.title.UnwrapOr(row.title),
      patch.description.UnwrapOr(row.description),
      Some(patch.completed.UnwrapOr(row.completed.UnwrapOr(false))),
      row.userId)
  }

  /** `update_todo`: read the row, merge the patch in, write the three columns back. */
  function UpdateTodo(store: TodoStore, id: int, patch: OptionalTodo, selectFails: bool, writeFails: bool)
    : (out: (Reply<Todo>, TodoStore))
    ensures selectFails || id !in store ==> out.0 == Err(NotFoundFor(id))
    ensures !selectFails && id in store && store[id].userId.None? ==>
      out.0 == Err((BadRequest, MessageOnlyResponse(USER_ID_MISSING)))
    ensures !selectFails && id in store && store[id].userId.Some? && writeFails ==>
      out.0 == Err((InternalServerError, MessageOnlyResponse(UPDATE_FAILED)))
    ensures out.0.Ok? <==> !selectFails && !writeFails && id in store && store[id].userId.Some?
    ensures out.0.Ok? ==> out.1 == store[id := Merge(store[id], patch)]
    ensures out.0.Ok? ==> out.1[id].userId.Some? && out.0.value == ToTodo(id, out.1[id])
    ensures out.0.Err? ==> out.1 == store
  {
    if selectFails || id !in store then (Err(NotFoundFor(id)), store)
    else
      var current := store[id];
      match current.userId
      case None => (Err((BadRequest, MessageOnlyResponse(USER_ID_MISSING))), store)
      case Some(userId) =>
        var merged := Merge(current, patch);
        if writeFails then (Err((InternalServerError, MessageOnlyResponse(UPDATE_FAILED))), store)
        else (Ok(ToTodo(id, merged)), store[id := merged])
  }

  /** `order` lists every row of the store exactly once. */
  predicate ListsEveryRowOnce(store: TodoStore, order: seq<int>) {
    && (forall i :: 0 <= i < |order| ==> order[i] in store)
    && (forall id :: id in store ==> id in order)
    && (forall i, j :: 0 <= i < j < |order| ==> order[i] != order[j])
  }

  /**
   `get_todos`: every row, in the order the database returns them; a single
   row with a null `user_id` fails the whole request.
   */
  method GetTodos(store: TodoStore, order: seq<int>, selectFails: bool) returns (r: Result<seq<Todo>, string>)
    requires ListsEveryRowOnce(store, order)
    ensures selectFails ==> r == Err(FETCH_FAILED)
    ensures !selectFails ==> (r.Ok? <==> forall id :: id in store ==> store[id].userId.Some?)
    ensures !selectFails && r.Err? ==> r.error == USER_ID_MISSING
    ensures r.Ok? ==> |r.value| == |order|
    ensures r.Ok? ==> forall i :: 0 <= i < |order| ==>
      store[order[i]].userId.Some? && r.value[i] == ToTodo(order[i], store[order[i]])
  {
    if selectFails {
      return Err(FETCH_FAILED);
    }
    var todos: seq<Todo> := [];
    var i := 0;
    while i < |order|
      invariant 0 <= i <= |order|
      invariant |todos| == i
      invariant forall j :: 0 <= j < i ==>
        store[order[j]].userId.Some? && todos[j] == ToTodo(order[j], store[order[j]])
    {
      var row := store[order[i]];
      if row.userId.None? {
        var bad := order[i];
        assert !(forall id :: id in store ==> store[id].userId.Some?) by {
          assert bad in store && store[bad].userId.None?;
        }
        return Err(USER_ID_MISSING);
      }
      todos := todos + [ToTodo(order[i], row)];
      i := i + 1;
    }
    forall id | id in store ensures store[id].userId.Some? {
      var j :| 0 <= j < |order| && order[j] == id;
    }
    return Ok(todos);
  }

  /** The text fields and the file of an upload, already taken out of the multipart body. */
  datatype Form = Form(file: Option<string>, texts: map<string, seq<string>>)

  /** The first value of a text field, if the field came with any. */
  function FirstText(form: Form, name: string): (r: Option<string>)
    ensures r.Some? <==> name in form.texts && |form.texts[name]| > 0
    ensures r.Some? ==> r.value == form.texts[name][0]
  {
    if name in form.texts && |form.texts[name]| > 0 then Some(form.texts[name][0]) else None
  }

  const NO_FILE := "No file found in the request"
  const INVALID_USER_ID := "Invalid user_id"
  const UNTITLED := "Untitled"

  /**
   The field defaults of `upload_todo`: the file becomes the description,
   title falls back to `Untitled`, completed is true only for the exact text
   `true`, and user_id must parse as an `i32` (a missing field parses as the
   empty string and fails).
   */
  function UploadFields(form: Form): (r: Result<Todo, string>)
    ensures form.file.None? ==> r == Err(NO_FILE)
    ensures form.file.Some? ==> (r.Err? <==> ParseI32(FirstText(form, "user_id").UnwrapOr("")).None?)
    ensures r.Err? && form.file.Some? ==> r.error == INVALID_USER_ID
    ensures r.Ok? ==> r.value.id.None? && r.value.description == form.file.value
    ensures r.Ok? ==> r.value.title == if FirstText(form, "title").Some? then FirstText(form, "title").value else UNTITLED
    ensures r.Ok? ==> (r.value.completed <==> FirstText(form, "completed") == Some("true"))
    ensures r.Ok? ==> ParseI32(FirstText(form, "user_id").UnwrapOr("")) == Some(r.value.userId)
  {
    match form.file
    case None => Err(NO_FILE)
    case Some(description) =>
      var title := FirstText(form, "title").UnwrapOr(UNTITLED);
      var completed :=
        match FirstText(form, "completed")
        case Some(text) => ParseBool(text).UnwrapOr(false)
        case None => false;
      var userIdText := FirstText(form, "user_id").UnwrapOr("");
      match ParseI32(userIdText)
      case None => Err(INVALID_USER_ID)
      case Some(userId) => Ok(Todo(None, title, description, completed, userId))
  }

  const UPLOADED := "Todo uploaded successfully"
  const UPLOAD_SAVE_FAILED := "Failed to save todo to the database"

  /** `upload_todo` after the multipart body is parsed and the file read: default, then insert. */
  function UploadTodo(store: TodoStore, form: Form, newId: Option<int>): (out: (Result<string, string>, TodoStore))
    requires newId.Some? ==> newId.value !in store
    ensures out.0.Ok? <==> UploadFields(form).Ok? && newId.Some?
    ensures out.0.Ok? ==> out.0.value == UPLOADED && out.1 == store[newId.value := RowOf(UploadFields(form).value)]
    ensures UploadFields(form).Err? ==> out.0 == Err(UploadFields(form).error)
    ensures UploadFields(form).Ok? && newId.None? ==> out.0 == Err(UPLOAD_SAVE_FAILED)
    ensures out.0.Err? ==> out.1 == store
  {
    match UploadFields(form)
    case Err(message) => (Err(message), store)
    case Ok(todo) =>
      match newId
      case None => (Err(UPLOAD_SAVE_FAILED), store)
      case Some(id) => (Ok(UPLOADED), store[id := RowOf(todo)])
  }

  // Properties relating several operations.

  /** A created task reads back exactly as the create answered. */
  lemma CreateThenGet(store: TodoStore, todo: Todo, id: int)
    requires id !in store
    ensures var (reply, store') := CreateTodo(store, todo, Some(id));
      reply.Ok? && GetTodo(store', id, false) == Ok(reply.value)
  {
  }

  /**
   An uploaded task reads back with the defaulted fields of the form under
   its new id.
   */
  lemma UploadThenGet(store: TodoStore, form: Form, id: int)
    requires id !in store && UploadFields(form).Ok?
    ensures var (reply, store') := UploadTodo(store, form, Some(id));
      reply == Ok(UPLOADED) && GetTodo(store', id, false) == Ok(UploadFields(form).value.(id := Some(id)))
  {
  }

  /** A deleted task is gone: reading or deleting it again is a 404. */
  lemma DeleteThenGet(store: TodoStore, id: int)
    requires id in store
    ensures var store' := DeleteTodo(store, id, false).1;
      GetTodo(store', id, false) == Err(NotFoundFor(id))
      && DeleteTodo(store', id, false) == (Err(NotFoundFor(id)), store')
  {
  }

  /** An updated task reads back exactly as the update answered. */
  lemma UpdateThenGet(store: TodoStore, id: int, patch: OptionalTodo)
    requires id in store && store[id].userId.Some?
    ensures var (reply, store') := UpdateTodo(store, id, patch, false, false);
      reply.Ok? && GetTodo(store', id, false) == reply
  {
  }

  /** An update touches only its own row and keeps the row's owner and the set of ids. */
  lemma UpdateIsLocal(store: TodoStore, id: int, patch: OptionalTodo, selectFails: bool, writeFails: bool, other: int)
    requires other in store && other != id
    ensures var store' := UpdateTodo(store, id, patch, selectFails, writeFails).1;
      store'.Keys == store.Keys && store'[other] == store[other]
      && (id in store ==> store'[id].userId == store[id].userId)
  {
  }

  /** Patches that differ only in `id` and `user_id` have the same effect. */
  lemma UpdateIgnoresPatchIdentity(
    store: TodoStore, id: int, patch: OptionalTodo, patchId: Option<int>, patchUserId: Option<int>,
    selectFails: bool, writeFails: bool)
    ensures UpdateTodo(store, id, patch.(id := patchId, userId := patchUserId), selectFails, writeFails)
      == UpdateTodo(store, id, patch, selectFails, writeFails)
  {
  }

  /** Applying the same patch twice is the same as applying it once. */
  lemma UpdateIdempotent(store: TodoStore, id: int, patch: OptionalTodo)
    requires id in store && store[id].userId.Some?
    ensures var (reply, store') := UpdateTodo(store, id, patch, false, false);
      UpdateTodo(store', id, patch, false, false) == (reply, store')
  {
    var merged := Merge(store[id], patch);
    var store' := store[id := merged];
    assert Merge(merged, patch) == merged;
    assert store'[id := merged] == store';
  }

  /** An empty patch changes nothing but turns a null `completed` into `false`. */
  lemma EmptyPatchKeepsRow(row: Row)
    ensures Merge(row, OptionalTodo(None, None, None, None, None))
      == row.(completed := Some(row.completed.UnwrapOr(false)))
  {
  }

  /** An upload whose user_id is the decimal spelling of an `i32` stores that user id. */
  lemma UploadUserIdRoundTrip(form: Form, n: int)
    requires form.file.Some? && IsI32(n)
    requires "user_id" in form.texts && |form.texts["user_id"]| > 0 && form.texts["user_id"][0] == FormatInt(n)
    ensures UploadFields(form).Ok? && UploadFields(form).value.userId == n
  {
    ParseFormatRoundTrip(n);
  }

  /** An upload without a user_id field is refused, the empty string not being a number. */
  lemma UploadWithoutUserIdRejected(form: Form)
    requires form.file.Some? && "user_id" !in form.texts
    ensures UploadFields(form) == Err(INVALID_USER_ID)
  {
  }
}

=== FILE: types.dfy ===
/**
 The request and response records of the service and the HTTP statuses the
 handlers answer with. Integer widths (`i32`, `usize`) are not enforced on
 these records; they arrive already deserialised.
 */
module Types {
  import opened Base

  /** The HTTP statuses the handlers produce: 200, 400, 401, 404, 409 and 500. */
  datatype Status = OK | BadRequest | Unauthorized | NotFound | Conflict | InternalServerError

  /** Credentials as posted to register and login; `id` is never read. */
  datatype User = User(id: Option<int>, email: string, password: string)

  /** A task as the API shows it. */
  datatype Todo = Todo(id: Option<int>, title: string, description: string, completed: bool, userId: int)

  /** A partial task, the body of a PATCH. */
  datatype OptionalTodo = OptionalTodo(
    id: Option<int>,
    title: Option<string>,
    description: Option<string>,
    completed: Option<bool>,
    userId: Option<int>)

  /** The claims put into a login token: subject and expiry in Unix seconds. */
  datatype Claims = Claims(sub: string, exp: nat)

  datatype MessageOnlyResponse = MessageOnlyResponse(message: string)

  datatype LoginResponse = LoginResponse(message: string, token: Option<string>)

  /** The error side of a handler that answers with a status and a JSON body. */
  type Rejection<T> = (Status, T)
}

=== FILE: validators.dfy ===
/**
 `is_email`: the anchored pattern `^[\w.-]+@([\w-]+\.)+[a-zA-Z]{2,4}$`.

 The recogniser `IsEmail` splits the candidate at `@` and the domain at `.`
 and checks the character classes of the pieces. `EmailPattern` states the
 regular expression itself: a local part, `@`, one or more `label.` groups
 and a two-to-four-letter ending, concatenated with nothing before or after.
 `IsEmailMatchesPattern` proves the two agree on every string.

 `\w` is taken as ASCII letters, digits and `_`.
 */
module Validators {
  import opened RustStr

  predicate AsciiLetter(c: char) {
    'a' <= c <= 'z' || 'A' <= c <= 'Z'
  }

  /** `\w`, restricted to ASCII. */
  predicate WordChar(c: char) {
    AsciiLetter(c) || '0' <= c <= '9' || c == '_'
  }

  /** `[\w.-]`, the class of the local part. */
  predicate LocalChar(c: char) {
    WordChar(c) || c == '.' || c == '-'
  }

  /** `[\w-]`, the class of a domain label. */
  predicate LabelChar(c: char) {
    WordChar(c) || c == '-'
  }

  /** Every character the pattern can match at all. */
  predicate EmailChar(c: char) {
    LocalChar(c) || c == '@'
  }

  /** `[\w.-]+` */
  predicate LocalPart(s: string) {
    |s| >= 1 && forall i :: 0 <= i < |s| ==> LocalChar(s[i])
  }

  /** `[\w-]+` */
  predicate Label(s: string) {
    |s| >= 1 && forall i :: 0 <= i < |s| ==> LabelChar(s[i])
  }

  /** `[a-zA-Z]{2,4}` */
  predicate TopLevel(s: string) {
    2 <= |s| <= 4 && forall i :: 0 <= i < |s| ==> AsciiLetter(s[i])
  }

  /** The dot-separated pieces of a domain: labels, the last piece a top-level ending. */
  predicate DomainPieces(parts: seq<string>) {
    && |parts| >= 2
    && (forall i :: 0 <= i < |parts| - 1 ==> Label(parts[i]))
    && TopLevel(parts[|parts| - 1])
  }

  /** The domain after `@`. */
  predicate Domain(d: string) {
    DomainPieces(Split(d, '.'))
  }

  /** The recogniser: exactly one `@`, a valid local part before it, a valid domain after. */
  predicate IsEmail(s: string) {
    var halves := Split(s, '@');
    |halves| == 2 && LocalPart(halves[0]) && Domain(halves[1])
  }

  /** `([\w-]+\.)+` with the groups given: each label followed by a dot. */
  function Dotted(labels: seq<string>): string
    decreases |labels|
  {
    if |labels| == 0 then "" else labels[0] + "." + Dotted(labels[1..])
  }

  /** The string a match with the given groups spans. */
  function Assemble(local: string, labels: seq<string>, tld: string): string {
    local + "@" + Dotted(labels) + tld
  }

  /** The regular expression, anchored at both ends, as a statement about its groups. */
  ghost predicate EmailPattern(s: string) {
    exists local, labels, tld :: s == Assemble(local, labels, tld) && WellFormedGroups(local, labels, tld)
  }

  /** The dotted groups followed by the ending are the dot-join of all the pieces. */
  lemma {:induction false} DottedIsJoin(labels: seq<string>, tld: string)
    ensures Dotted(labels) + tld == Join(labels + [tld], '.')
    decreases |labels|
  {
    if |labels| == 0 {
      assert labels + [tld] == [tld];
    } else {
      DottedIsJoin(labels[1..], tld);
      assert (labels + [tld])[1..] == labels[1..] + [tld];
    }
  }

  /** All groups of a match are well formed. */
  predicate WellFormedGroups(local: string, labels: seq<string>, tld: string) {
    && LocalPart(local)
    && |labels| >= 1
    && (forall i :: 0 <= i < |labels| ==> Label(labels[i]))
    && TopLevel(tld)
  }

  /** Neither a label nor the ending contains a character outside `[\w-]`. */
  lemma GroupPiecesAvoid(labels: seq<string>, tld: string, c: char)
    requires forall i :: 0 <= i < |labels| ==> Label(labels[i])
    requires TopLevel(tld)
    requires !LabelChar(c)
    ensures PiecesAvoid(labels + [tld], c)
  {
    var parts := labels + [tld];
    forall i | 0 <= i < |parts| ensures c !in parts[i] {
      if i < |labels| {
        assert parts[i] == labels[i];
        assert Label(labels[i]);
      } else {
        assert parts[i] == tld;
      }
    }
  }

  /** A character outside `[\w-]` and other than `.` does not occur in the domain of a match. */
  lemma GroupsAvoid(labels: seq<string>, tld: string, c: char)
    requires |labels| >= 1
    requires forall i :: 0 <= i < |labels| ==> Label(labels[i])
    requires TopLevel(tld)
    requires !LabelChar(c) && c != '.'
    ensures c !in Dotted(labels) + tld
  {
    GroupPiecesAvoid(labels, tld, c);
    DottedIsJoin(labels, tld);
    JoinAvoids(labels + [tld], '.', c);
  }

  /** Dot-free groups split back into themselves. */
  lemma SplitDotted(labels: seq<string>, tld: string)
    requires forall i :: 0 <= i < |labels| ==> Label(labels[i])
    requires TopLevel(tld)
    ensures Split(Dotted(labels) + tld, '.') == labels + [tld]
  {
    assert !LabelChar('.');
    GroupPiecesAvoid(labels, tld, '.');
    DottedIsJoin(labels, tld);
    SplitJoin(labels + [tld], '.');
  }

  /** The pieces of a match, in order, are labels and then an ending. */
  lemma PiecesOfGroups(labels: seq<string>, tld: string)
    requires |labels| >= 1
    requires forall i :: 0 <= i < |labels| ==> Label(labels[i])
    requires TopLevel(tld)
    ensures DomainPieces(labels + [tld])
  {
    var parts := labels + [tld];
    forall i | 0 <= i < |parts| - 1 ensures Label(parts[i]) {
      assert parts[i] == labels[i];
    }
  }

  /** The groups of a match form a domain the recogniser accepts. */
  lemma DomainOfGroups(labels: seq<string>, tld: string)
    requires |labels| >= 1
    requires forall i :: 0 <= i < |labels| ==> Label(labels[i])
    requires TopLevel(tld)
    ensures Domain(Dotted(labels) + tld)
  {
    SplitDotted(labels, tld);
    PiecesOfGroups(labels, tld);
    DomainFromPieces(Dotted(labels) + tld, labels + [tld]);
  }

  /** A string whose dot-pieces are domain pieces is a domain. */
  lemma DomainFromPieces(d: string, parts: seq<string>)
    requires Split(d, '.') == parts
    requires DomainPieces(parts)
    ensures Domain(d)
  {
  }

  /** A local part has no `@`. */
  lemma LocalAvoids(local: string, c: char)
    requires LocalPart(local)
    requires !LocalChar(c)
    ensures c !in local
  {
  }

  /** An accepted string, taken apart into the groups of the pattern. */
  lemma Groups(s: string) returns (local: string, labels: seq<string>, tld: string)
    requires IsEmail(s)
    ensures s == Assemble(local, labels, tld)
    ensures WellFormedGroups(local, labels, tld)
  {
    var halves := Split(s, '@');
    var rest := halves[1];
    local := halves[0];
    JoinSplit(s, '@');
    assert halves[1..] == [rest];
    assert s == local + "@" + rest;
    var parts := Split(rest, '.');
    JoinSplit(rest, '.');
    labels, tld := parts[..|parts| - 1], parts[|parts| - 1];
    assert parts == labels + [tld];
    DottedIsJoin(labels, tld);
    assert forall i :: 0 <= i < |labels| ==> labels[i] == parts[i];
  }

  /** Well-formed groups, assembled, are accepted. */
  lemma AssembledAccepted(local: string, labels: seq<string>, tld: string)
    requires WellFormedGroups(local, labels, tld)
    ensures IsEmail(Assemble(local, labels, tld))
  {
    var rest := Dotted(labels) + tld;
    var s := Assemble(local, labels, tld);
    DomainOfGroups(labels, tld);
    GroupsAvoid(labels, tld, '@');
    LocalAvoids(local, '@');
    assert s == local + ['@'] + rest;
    SplitAtFirst(local, rest, '@');
    SplitWithoutSep(rest, '@');
    assert Split(s, '@') == [local, rest];
  }

  /** The recogniser accepts exactly the strings the pattern matches. */
  lemma IsEmailMatchesPattern(s: string)
    ensures IsEmail(s) <==> EmailPattern(s)
  {
    if IsEmail(s) {
      var local, labels, tld := Groups(s);
      assert WellFormedGroups(local, labels, tld);
    }
    if EmailPattern(s) {
      var local, labels, tld :| s == Assemble(local, labels, tld) && WellFormedGroups(local, labels, tld);
      AssembledAccepted(local, labels, tld);
    }
  }

  /** An accepted string has exactly one `@`. */
  lemma AcceptedHasOneAt(s: string)
    requires IsEmail(s)
    ensures multiset(s)['@'] == 1
  {
    var local, labels, tld := Groups(s);
    var rest := Dotted(labels) + tld;
    GroupsAvoid(labels, tld, '@');
    LocalAvoids(local, '@');
    assert s == local + ['@'] + rest;
    assert multiset(s) == multiset(local) + multiset{'@'} + multiset(rest);
  }

  /**
   Anchoring: an accepted string contains no character outside the
   pattern's alphabet, so one added anywhere (a space, a newline, a tab)
   cannot be matched.
   */
  lemma AcceptedAlphabet(s: string, c: char)
    requires IsEmail(s)
    requires !EmailChar(c)
    ensures c !in s
  {
    var local, labels, tld := Groups(s);
    GroupsAvoid(labels, tld, c);
    LocalAvoids(local, c);
    assert s == local + ['@'] + (Dotted(labels) + tld);
  }

  /** Surrounding an address with a character outside the alphabet makes it rejected. */
  lemma AnchoredAtBothEnds(s: string, c: char)
    requires !EmailChar(c)
    ensures !IsEmail([c] + s)
    ensures !IsEmail(s + [c])
  {
    assert c in [c] + s && c in s + [c] by {
      assert ([c] + s)[0] == c;
      assert (s + [c])[|s|] == c;
    }
    if IsEmail([c] + s) {
      AcceptedAlphabet([c] + s, c);
    }
    if IsEmail(s + [c]) {
      AcceptedAlphabet(s + [c], c);
    }
  }

  /** An accepted string ends with a dot followed by `k` ASCII letters, `k` from two to four. */
  lemma AcceptedEnding(s: string) returns (k: nat)
    requires IsEmail(s)
    ensures 2 <= k <= 4 && k < |s|
    ensures s[|s| - k - 1] == '.' && TopLevel(s[|s| - k..])
  {
    var local, labels, tld := Groups(s);
    DottedEndsWithDot(labels);
    k := |tld|;
    var front := local + "@" + Dotted(labels);
    assert s == front + tld;
    assert s[|s| - k..] == tld;
    assert s[|s| - k - 1] == front[|front| - 1];
  }

  /** A non-empty run of dotted groups ends with a dot. */
  lemma {:induction false} DottedEndsWithDot(labels: seq<string>)
    requires |labels| >= 1
    ensures |Dotted(labels)| >= 1 && Dotted(labels)[|Dotted(labels)| - 1] == '.'
    decreases |labels|
  {
    if |labels| > 1 {
      DottedEndsWithDot(labels[1..]);
    }
  }

  /** A trailing dot is always rejected. */
  lemma TrailingDotRejected(s: string)
    ensures !IsEmail(s + ".")
  {
    var t := s + ".";
    assert t[|t| - 1] == '.';
    if IsEmail(t) {
      var k := AcceptedEnding(t);
    }
  }

  /** A one-letter ending is rejected. */
  lemma OneLetterEndingRejected(s: string, c: char)
    ensures !IsEmail(s + ['.', c])
  {
    var t := s + ['.', c];
    assert t[|t| - 2] == '.';
    if IsEmail(t) {
      var k := AcceptedEnding(t);
    }
  }

  /** A five-letter ending is rejected. */
  lemma FiveLetterEndingRejected(s: string, e: string)
    requires |e| == 5 && forall i :: 0 <= i < 5 ==> AsciiLetter(e[i])
    ensures !IsEmail(s + "." + e)
  {
    var t := s + "." + e;
    assert forall j :: |t| - 5 <= j < |t| ==> t[j] == e[j - |t| + 5];
    if IsEmail(t) {
      var k := AcceptedEnding(t);
    }
  }

  /**
   An ending after the last dot that contains a digit anywhere is
   rejected. (A digit before the last dot is fine: `a@b.1.com` is accepted.)
   */
  lemma DigitInEndingRejected(s: string, e: string, i: nat)
    requires '.' !in e
    requires i < |e| && '0' <= e[i] <= '9'
    ensures !IsEmail(s + "." + e)
  {
    var t := s + "." + e;
    assert t[|t| - |e| - 1] == '.';
    assert forall j :: |t| - |e| <= j < |t| ==> t[j] == e[j - |t| + |e|];
    if IsEmail(t) {
      var k := AcceptedEnding(t);
    }
  }

  /** An empty local part is rejected. */
  lemma EmptyLocalRejected(s: string)
    ensures !IsEmail("@" + s)
  {
    var t := "@" + s;
    assert t == "" + ['@'] + s;
    SplitAtFirst("", s, '@');
  }

  /** A dotted, hyphenated address is accepted. */
  lemma AcceptsExample()
    ensures IsEmail("a.b-c@sub.domain.com")
  {
    AssembledAccepted("a.b-c", ["sub", "domain"], "com");
    assert Assemble("a.b-c", ["sub", "domain"], "com") == "a.b-c@sub.domain.com";
  }

  /** A string without `@` is rejected. */
  lemma NoAtRejected(s: string)
    requires '@' !in s
    ensures !IsEmail(s)
  {
    SplitWithoutSep(s, '@');
  }

  /** A word without `@` is rejected. */
  lemma RejectsExample()
    ensures !IsEmail("not-an-email")
  {
    NoAtRejected("not-an-email");
  }
}
